=== FILE: README.md ===
# dozer-model: the detach/attach helpers in Dafny

This project models four parts of dozer-model, a Wicket model that lets Hibernate entity graphs survive serialization between requests. When a model is detached, lazy relations are replaced by small serializable placeholders. On the next request they are attached again against a fresh session.

- **HibernateCollectionType** (`collection_type.dfy`) covers the four collection kinds LIST, SET, SORTED_SET and MAP.
  - The runtime class of a persistent collection is a datatype, built from Hibernate 3's `org.hibernate.collection` classes plus arbitrary subclasses of them. `InstanceOf` is the reflexive-transitive closure of the superclass relation.
  - `determineType` is the ordered `instanceof` chain.
  - Each kind also fixes a Hibernate class, a plain `java.util` class and an interface. `createCollection` and `createPlainCollection` build the empty containers.
- **Seen** (`seen.dfy`) is the detacher's cycle tracker. It is a sequence of object references: `add` appends, `remove` deletes the first occurrence, and `contains` is the latching linear scan by reference identity.
- **Attacher** (`attacher.dfy`) works over an abstract world:
  - a session finder (a map from class name to session) and the root entity name of each mapped class;
  - each session's persistence context: maps for managed entities, proxies, collections by key and unowned collections, a set for the batch-fetch queue, and a log of detached-collection registrations;
  - a heap holding the proxies and collections the attacher creates, plus a counter for the next free reference.
  
  Each attach is a pure function that returns the value for the owner's field and the new world.
- **DozerListModel** (`list_model.dfy`) is a nullable sequence of per-element models. The per-element model (DozerModel) is opaque: it is given as the three functions wrap, getObject and detach.

Java `null` is `Option.None`. Object identity is a natural number (`Objects.Ref`, in `objects.dfy`).

## Model

| member | source | states |
|---|---|---|
| HibernateCollectionType.DetermineType | src/main/java/nl/dries/wicket/hibernate/dozer/helper/HibernateCollectionType.java:165-187 | The result is SORTED_SET exactly for instances of PersistentSortedSet, SET exactly for the other PersistentSet instances, and LIST exactly for PersistentBag instances that are not sets. Every other collection is MAP, so the classification is total. |
| HibernateCollectionType.SortedSetIsSet | src/main/java/nl/dries/wicket/hibernate/dozer/helper/HibernateCollectionType.java:169-176 | Every PersistentSortedSet instance is also a PersistentSet instance. This is why the sorted test must come first. |
| HibernateCollectionType.InstanceOfTransitive | src/main/java/nl/dries/wicket/hibernate/dozer/helper/HibernateCollectionType.java:169-180 | `instanceof`, as used by the chain, is transitive along the collection class hierarchy. |
| HibernateCollectionType.EveryClassIsPersistent | src/main/java/nl/dries/wicket/hibernate/dozer/helper/HibernateCollectionType.java:165 | Every modelled runtime collection class, user subclasses included, descends from AbstractPersistentCollection. That base class implements the PersistentCollection interface, so any of them is a valid argument. |
| HibernateCollectionType.HibernateClass | src/main/java/nl/dries/wicket/hibernate/dozer/helper/HibernateCollectionType.java:30-36 | The Hibernate class of each kind (PersistentBag, PersistentSet, PersistentSortedSet, PersistentMap) implements the kind's interface. It is a PersistentSet exactly for SET and SORTED_SET. |
| HibernateCollectionType.PlainTypeClass | src/main/java/nl/dries/wicket/hibernate/dozer/helper/HibernateCollectionType.java:30-36 | The plain class of each kind (ArrayList, HashSet, TreeSet, HashMap) implements the kind's interface. Only SORTED_SET gets the sorted TreeSet. |
| HibernateCollectionType.DetermineTypeRoundTrip | src/main/java/nl/dries/wicket/hibernate/dozer/helper/HibernateCollectionType.java:29-36 | A collection of the Hibernate class a kind names is classified as that kind again. |
| HibernateCollectionType.DetermineTypeSound | src/main/java/nl/dries/wicket/hibernate/dozer/helper/HibernateCollectionType.java:169-180 | A LIST, SET or SORTED_SET answer is backed by an instanceof test of that kind's Hibernate class. |
| HibernateCollectionType.DetermineTypeInherited | src/main/java/nl/dries/wicket/hibernate/dozer/helper/HibernateCollectionType.java:169-184 | A subclass of a collection class is classified the same as its parent. |
| HibernateCollectionType.PlainInterface | src/main/java/nl/dries/wicket/hibernate/dozer/helper/HibernateCollectionType.java:67-70 | The interface is List exactly for LIST, Set exactly for SET and SORTED_SET, and Map exactly for MAP. |
| HibernateCollectionType.CreateCollection | src/main/java/nl/dries/wicket/hibernate/dozer/helper/HibernateCollectionType.java:79-87 | The new persistent collection is an instance of exactly the kind's Hibernate class and is classified as the requested kind. It is bound to the given session, is not initialised, is empty and has no snapshot. |
| HibernateCollectionType.CreatePlainCollection | src/main/java/nl/dries/wicket/hibernate/dozer/helper/HibernateCollectionType.java:124-136 | The container is an empty instance of the kind's plain class, which implements the kind's interface. |
| HibernateCollectionType.PlainCollectionIgnoresSource | src/main/java/nl/dries/wicket/hibernate/dozer/helper/HibernateCollectionType.java:124-136 | The persistent collection passed in has no influence on the container that is built. |
| Seen.Empty | src/main/java/nl/dries/wicket/hibernate/dozer/helper/Seen.java:14 | A new tracker holds no object, so `contains` is false for every object. |
| Seen.Add | src/main/java/nl/dries/wicket/hibernate/dozer/helper/Seen.java:20-23 | The list grows by exactly one and keeps its old prefix. The new last element is the object, so afterwards the tracker contains it. Duplicates are kept. |
| Seen.RemoveFirst | src/main/java/nl/dries/wicket/hibernate/dozer/helper/Seen.java:31 | An absent object leaves the list as it was, and a present one shortens it by exactly one. |
| Seen.RemoveFirstAt | src/main/java/nl/dries/wicket/hibernate/dozer/helper/Seen.java:29-32 | The element removed is the first occurrence, and the elements before and after it keep their order. |
| Seen.DeleteAtCounts | src/main/java/nl/dries/wicket/hibernate/dozer/helper/Seen.java:31 | Deleting one position takes away exactly one copy of that element and leaves every other element's membership unchanged. |
| Seen.Remove | src/main/java/nl/dries/wicket/hibernate/dozer/helper/Seen.java:29-32 | `remove` deletes at most one occurrence, the first one, and keeps the order of the rest. An absent object changes nothing. The multiset loses exactly one copy of the object, and membership of every other object is unchanged. |
| Seen.Contains | src/main/java/nl/dries/wicket/hibernate/dozer/helper/Seen.java:41-54 | The latching scan returns true exactly when some stored reference is identical to the object. It reads the tracker and returns nothing else. |
| Seen.AddThenRemove | src/main/java/nl/dries/wicket/hibernate/dozer/helper/Seen.java:20-32 | Adding and then removing an object that was not present restores the tracker exactly. |
| Seen.AddThenRemoveMultiset | src/main/java/nl/dries/wicket/hibernate/dozer/helper/Seen.java:20-32 | Adding and then removing any object, even one already present, leaves the same objects seen the same number of times. |
| Attacher.AttachSimple | src/main/java/nl/dries/wicket/hibernate/dozer/helper/Attacher.java:60-92 | The session is the one for the target class, and no other session changes. A managed entity under the key (id, root entity name of the target class) is returned with nothing changed. Failing that, a registered proxy is returned with nothing changed. Failing both, a new proxy for the key is created in that session, the key is added to the batch-fetch queue and the proxy is registered under it; exactly one new reference is used. The session finder and the root entity names never change, and nothing else changes. |
| Attacher.AttachCollection | src/main/java/nl/dries/wicket/hibernate/dozer/helper/Attacher.java:100-124 | The session is the one for the owner's class, and no other session changes. A collection registered under (role, owner id) is returned with nothing changed. Otherwise the result is a new collection: its class is the Hibernate class of the placeholder's kind, so it classifies as that kind, it is bound to the session, uninitialised and empty, and its snapshot is (owner id, role, null). It is logged as an uninitialised detached collection and registered as unowned under the key; exactly one new reference is used. The session finder and the root entity names never change. |
| Attacher.Attach | src/main/java/nl/dries/wicket/hibernate/dozer/helper/Attacher.java:169-177 | Simple placeholders take the simple path and collection placeholders take the collection path. |
| Attacher.AttachCreatesFresh | src/main/java/nl/dries/wicket/hibernate/dozer/helper/Attacher.java:78-83 | When an attach changes the state, the object it returns is new. It is not in the heap, and no session holds it as a managed entity, a proxy, a collection, an unowned collection or a detached collection. |
| Attacher.AllocatePreservesValid | src/main/java/nl/dries/wicket/hibernate/dozer/helper/Attacher.java:78-83 | Installing a new object and a well-formed context for one session keeps the whole state well-formed. |
| Attacher.WithProxyValid | src/main/java/nl/dries/wicket/hibernate/dozer/helper/Attacher.java:81-82 | Queueing a key for batch fetching and registering a new proxy under it keeps the session consistent: every registered proxy is a proxy for its own key in its own session. |
| Attacher.WithCollectionValid | src/main/java/nl/dries/wicket/hibernate/dozer/helper/Attacher.java:116-119 | Registering a new collection whose snapshot names its key keeps the session consistent. |
| Attacher.AttachSimplePreservesValid | src/main/java/nl/dries/wicket/hibernate/dozer/helper/Attacher.java:60-92 | Simple attach preserves well-formedness: references stay below the allocation counter, and registrations stay consistent. |
| Attacher.AttachCollectionPreservesValid | src/main/java/nl/dries/wicket/hibernate/dozer/helper/Attacher.java:100-124 | Collection attach preserves well-formedness. |
| Attacher.AttachPreservesValid | src/main/java/nl/dries/wicket/hibernate/dozer/helper/Attacher.java:169-177 | Every attach through the dispatcher preserves well-formedness. |
| Attacher.AttachSimpleUnifies | src/main/java/nl/dries/wicket/hibernate/dozer/helper/Attacher.java:71-88 | Identity unification: a second simple placeholder with the same id and a class of the same root entity in the same session, for example the same (class, id), attached in the state the first left, returns the same object and leaves the state unchanged, so the proxy is registered only once. |
| Attacher.AttachSimpleResolves | src/main/java/nl/dries/wicket/hibernate/dozer/helper/Attacher.java:71-88 | After a simple attach, the key resolves in that session, as a managed entity or a registered proxy, to the returned object. |
| DozerListModel.Empty | src/main/java/nl/dries/wicket/hibernate/dozer/DozerListModel.java:39-42 | The default constructor gives a non-null, empty model list. |
| DozerListModel.WrapAll | src/main/java/nl/dries/wicket/hibernate/dozer/DozerListModel.java:55-59 | There is one wrapped model per object, and model i wraps object i. |
| DozerListModel.InnerSet | src/main/java/nl/dries/wicket/hibernate/dozer/DozerListModel.java:49-61 | A null list gives null models. A list of length n gives exactly n models, one per element, in order. |
| DozerListModel.Create | src/main/java/nl/dries/wicket/hibernate/dozer/DozerListModel.java:29-34 | The list constructor gives null models for a null list, otherwise one model per element, in order. |
| DozerListModel.SetObject | src/main/java/nl/dries/wicket/hibernate/dozer/DozerListModel.java:100-103 | After `setObject`, the models are built from the new list alone, one per element and in order, or are null for a null list. |
| DozerListModel.GetAll | src/main/java/nl/dries/wicket/hibernate/dozer/DozerListModel.java:86-90 | The new list has one entry per model, and entry i is model i's object. |
| DozerListModel.GetObject | src/main/java/nl/dries/wicket/hibernate/dozer/DozerListModel.java:82-94 | The result is null exactly when the models are null. Otherwise it has one entry per model, and entry i is `models[i].getObject()`. |
| DozerListModel.DetachAll | src/main/java/nl/dries/wicket/hibernate/dozer/DozerListModel.java:71-74 | `detach` is called once on every model, in list order, and model i is replaced by its detached state. |
| DozerListModel.Detach | src/main/java/nl/dries/wicket/hibernate/dozer/DozerListModel.java:67-76 | With null models nothing is called and nothing changes. Otherwise each model is detached exactly once, in order, and the count is preserved. |
| DozerListModel.EmptyReadsEmpty | src/main/java/nl/dries/wicket/hibernate/dozer/DozerListModel.java:82-91 | A default-constructed model reads as an empty, non-null list. |
| DozerListModel.SetNullReadsNull | src/main/java/nl/dries/wicket/hibernate/dozer/DozerListModel.java:49-53 | After setting a null list, the model reads as null. |
| DozerListModel.SetThenGet | src/main/java/nl/dries/wicket/hibernate/dozer/DozerListModel.java:82-93 | If each element model reads back the object it wraps, the list model reads back exactly the list it was set to, null included. |
| DozerListModel.SetObjectDiscardsPrevious | src/main/java/nl/dries/wicket/hibernate/dozer/DozerListModel.java:100-103 | The result of `setObject` does not depend on the previous models. |
| DozerListModel.CreateThenGet | src/main/java/nl/dries/wicket/hibernate/dozer/DozerListModel.java:29-34 | If each element model reads back the object it wraps, a model built by the list constructor reads back exactly the list it was built from, null included. |
| DozerListModel.DetachKeepsObject | src/main/java/nl/dries/wicket/hibernate/dozer/DozerListModel.java:67-76 | If detaching an element model keeps the object it reads, detaching the list model keeps the list it reads. |

## Left out

- Seen.Remove: objects are compared by identity, but Java's `List.remove` (Seen.java:31) compares with `equals`, while `contains` uses `==`. For entities that override `equals`, `remove` can delete a different object that is merely equal. This model compares by identity only and does not model arbitrary `equals`.
- HibernateCollectionType.CreateCollection and HibernateCollectionType.CreatePlainCollection: only the success path is modelled. The reflective failures, which log and return null, are not.
- Attacher.AttachCollection: the model does not say how Hibernate indexes a collection registered through `addUninitializedDetachedCollection`. The log and the unowned map are recorded, but the `getCollection` lookup map is not updated, so no idempotence of collection attach is claimed beyond the lookup.
- Attacher.AttachSimple and Attacher.AttachCollection require the session finder to yield a live session for the class. The Java code does not check for null and would fail there.
- Attacher: entity persisters are identified by entity class name and collection persisters by role. The owner's identifier is taken as given on the placeholder; it stands for the value class metadata returns. Proxy generation, persister lookup and batch loading are Hibernate internals and appear only as the objects and registrations they leave behind.
- HibernateCollectionType: the persistent collection hierarchy (sorted set under set, sorted map under map, everything else under the abstract base) is Hibernate 3's and is outside this repository. The XML element holders are not listed. A PersistentList, PersistentIdentifierBag, PersistentSortedMap or PersistentArrayHolder falls through to MAP, exactly as the chain is written.
- DozerListModel: DozerModel is opaque, given by its constructor, `getObject` and `detach`. Its own attach-on-access state and the freshness of the returned `ArrayList` are not modelled.
- Attacher.Attach: the placeholder is a closed choice of simple or collection. The Java dispatcher casts every non-simple definition to CollectionPropertyDefinition (Attacher.java:171-176). Another subclass would fail with a ClassCastException and a null definition with a NullPointerException, and neither case is modelled.
- HibernateCollectionType.DetermineType: there is no null collection. In Java, `null instanceof` is false, so a null argument falls through to MAP (HibernateCollectionType.java:165-187).
- Attacher.AttachSimple: the EntityKey built at Attacher.java:68 is modelled, as Hibernate compares it, by the identifier and the root entity name. The class-to-root table is a given map (`rootOf`), not derived from mapping metadata, and a class missing from it is its own root.
- Attacher.AttachSimple: `batchLoadable` records every key passed to `addBatchLoadableEntityKey` (Attacher.java:81). Hibernate's queue keeps a key only when the persister is batch-loadable, and that filter is not modelled.
- ObjectHelper is not part of this model. It is reflection and proxy-unwrapping glue over Spring, BeanUtils and Hibernate.
- The detacher, the property definition classes, ModelCallback, SessionFinder and DozerModel are not part of this model. They appear only as the opaque parameters above.
- Logging, serialization and the Wicket request lifecycle are not modelled.

=== FILE: attacher.dfy ===
/**
 * The attacher: turns a property placeholder back into a live value against a
 * session's persistence context. The context is a record of maps, object
 * identity is a `Ref`, and the objects the attacher itself creates (proxies
 * and persistent collections) live in a heap indexed by `Ref`.
 */
module Attacher {
  import opened Wrappers
  import opened Objects
  import HT = HibernateCollectionType

  /** A (fully qualified) entity class name. */
  type ClassName = string

  /** A collection role: the qualified name of a to-many association. */
  type Role = string

  /** The entity a placeholder was stripped from; `id` is the identifier its
      class metadata reports. */
  datatype Owner = Owner(ref: Ref, cls: ClassName, id: Id)

  /** Placeholder of a single-valued lazy relation. */
  datatype SimplePropertyDefinition =
    SimplePropertyDefinition(owner: Owner, property: string, entityClass: ClassName, id: Id)

  /** Placeholder of an uninitialised to-many relation. */
  datatype CollectionPropertyDefinition =
    CollectionPropertyDefinition(owner: Owner, property: string, role: Role, collectionType: HT.Kind)

  datatype PropertyDefinition =
    | Simple(simple: SimplePropertyDefinition)
    | Collection(collection: CollectionPropertyDefinition)

  /** Hibernate's EntityKey: two keys are equal when their identifiers and
      their root entity names are equal, so an entity is found under the key
      of any class in its mapped hierarchy. */
  datatype EntityKey = EntityKey(id: Id, rootEntityName: ClassName)

  /** Hibernate's CollectionKey: the collection persister's role and the owner's identifier. */
  datatype CollectionKey = CollectionKey(role: Role, key: Id)

  /** One `addUninitializedDetachedCollection(persister, collection)` call. */
  datatype DetachedEntry = DetachedEntry(role: Role, collection: Ref)

  /** The part of a session's persistence context the attacher reads and writes. */
  datatype PersistenceContext = PersistenceContext(
    entities: map<EntityKey, Ref>,            // getEntity
    proxies: map<EntityKey, Ref>,             // getProxy / addProxy
    batchLoadable: set<EntityKey>,            // the batch-fetch queue's entity keys
    collections: map<CollectionKey, Ref>,     // getCollection
    detachedCollections: seq<DetachedEntry>,  // addUninitializedDetachedCollection
    unownedCollections: map<CollectionKey, Ref>) // addUnownedCollection

  /** Objects created by the attacher. */
  datatype HeapObject =
    | ProxyObject(key: EntityKey, entityName: ClassName, session: SessionId)
    | CollectionObject(collection: HT.PersistentCollection)

  /** The session finder, the root entity name of each mapped class, every
      session's persistence context, the created objects, and the next unused
      reference. */
  datatype Env = Env(
    sessionFinder: map<ClassName, SessionId>,
    rootOf: map<ClassName, ClassName>,
    contexts: map<SessionId, PersistenceContext>,
    heap: map<Ref, HeapObject>,
    next: Ref)

  /** The result of an attach: the value for the owner's field, and the new state. */
  datatype Attached = Attached(value: Ref, env: Env)

  /** The session finder yields a live session for `cls`. */
  predicate HasSession(env: Env, cls: ClassName)
  {
    cls in env.sessionFinder && env.sessionFinder[cls] in env.contexts
  }

  /** Every reference a persistence context holds. */
  predicate RefsBelow(pc: PersistenceContext, bound: Ref)
  {
    && (forall k :: k in pc.entities ==> pc.entities[k] < bound)
    && (forall k :: k in pc.proxies ==> pc.proxies[k] < bound)
    && (forall k :: k in pc.collections ==> pc.collections[k] < bound)
    && (forall k :: k in pc.unownedCollections ==> pc.unownedCollections[k] < bound)
    && (forall i :: 0 <= i < |pc.detachedCollections| ==> pc.detachedCollections[i].collection < bound)
  }

  /** A registered proxy is a proxy for its own key in its own session, and an
      unowned collection carries the snapshot of its own key. */
  predicate RegistrationsConsistent(env: Env, s: SessionId)
    requires s in env.contexts
  {
    var pc := env.contexts[s];
    && (forall k :: k in pc.proxies ==>
          && pc.proxies[k] in env.heap
          && env.heap[pc.proxies[k]].ProxyObject?
          && env.heap[pc.proxies[k]].key == k
          && env.heap[pc.proxies[k]].session == s)
    && (forall k :: k in pc.unownedCollections ==>
          && pc.unownedCollections[k] in env.heap
          && env.heap[pc.unownedCollections[k]].CollectionObject?
          && env.heap[pc.unownedCollections[k]].collection.session == s
          && env.heap[pc.unownedCollections[k]].collection.snapshot == Some(HT.Snapshot(k.key, k.role, None)))
  }

  /** Well-formed state: `next` is beyond every reference in use and every
      registration is consistent. */
  predicate Valid(env: Env)
  {
    && (forall r :: r in env.heap ==> r < env.next)
    && (forall s :: s in env.contexts ==> RefsBelow(env.contexts[s], env.next))
    && (forall s :: s in env.contexts ==> RegistrationsConsistent(env, s))
  }

  /** Only the persistence context of session `s` may differ: the session
      finder and the mapping metadata are untouched. */
  predicate OtherSessionsUnchanged(env: Env, env': Env, s: SessionId)
  {
    && env'.sessionFinder == env.sessionFinder
    && env'.rootOf == env.rootOf
    && env'.contexts.Keys == env.contexts.Keys
    && (forall t :: t in env.contexts && t != s ==> env'.contexts[t] == env.contexts[t])
  }

  /** The root entity name of a class's mapped hierarchy; an unmapped or
      root class is its own root. */
  function RootEntityName(env: Env, cls: ClassName): ClassName
  {
    if cls in env.rootOf then env.rootOf[cls] else cls
  }

  /** The entity key a simple placeholder resolves under. */
  function SimpleKey(def: SimplePropertyDefinition, env: Env): EntityKey
  {
    EntityKey(def.id, RootEntityName(env, def.entityClass))
  }

  /** The collection key a collection placeholder resolves under. */
  function CollectionKeyOf(def: CollectionPropertyDefinition): CollectionKey
  {
    CollectionKey(def.role, def.owner.id)
  }

  /** Stores `obj` at the next free reference and installs `pc'` as the
      persistence context of session `s`. */
  function Allocate(env: Env, s: SessionId, pc': PersistenceContext, obj: HeapObject): Attached
  {
    Attached(env.next, env.(contexts := env.contexts[s := pc'], heap := env.heap[env.next := obj], next := env.next + 1))
  }

  /** The batch-fetch queue and proxy registrations of a new proxy. */
  function WithProxy(pc: PersistenceContext, key: EntityKey, proxy: Ref): PersistenceContext
  {
    pc.(batchLoadable := pc.batchLoadable + {key}, proxies := pc.proxies[key := proxy])
  }

  /** The detached and unowned registrations of a new collection. */
  function WithCollection(pc: PersistenceContext, key: CollectionKey, collection: Ref): PersistenceContext
  {
    pc.(detachedCollections := pc.detachedCollections + [DetachedEntry(key.role, collection)],
        unownedCollections := pc.unownedCollections[key := collection])
  }

  /** attach(SimplePropertyDefinition): the managed entity if there is one,
      else the registered proxy, else a new proxy that is queued for batch
      fetching and registered. The session is the one for the target class. */
  function AttachSimple(def: SimplePropertyDefinition, env: Env): (a: Attached)
    requires HasSession(env, def.entityClass)
    ensures var s := env.sessionFinder[def.entityClass];
      var pc := env.contexts[s];
      var key := SimpleKey(def, env);
      && OtherSessionsUnchanged(env, a.env, s)
      && (key in pc.entities ==> a.value == pc.entities[key] && a.env == env)
      && (key !in pc.entities && key in pc.proxies ==> a.value == pc.proxies[key] && a.env == env)
      && (key !in pc.entities && key !in pc.proxies ==>
            && a.env.heap == env.heap[a.value := ProxyObject(key, def.entityClass, s)]
            && a.value < a.env.next && a.env.next == env.next + 1
            && a.env.contexts[s] == pc.(proxies := pc.proxies[key := a.value],
                                         batchLoadable := pc.batchLoadable + {key}))
  {
    var s := env.sessionFinder[def.entityClass];
    var pc := env.contexts[s];
    var key := SimpleKey(def, env);
    if key in pc.entities then
      Attached(pc.entities[key], env)
    else if key in pc.proxies then
      Attached(pc.proxies[key], env)
    else
      Allocate(env, s, WithProxy(pc, key, env.next), ProxyObject(key, def.entityClass, s))
  }

  /** attach(CollectionPropertyDefinition): the collection registered under
      (role, owner id) if there is one, else a new uninitialised collection of
      the placeholder's kind whose snapshot names that key, registered as an
      uninitialised detached collection and as an unowned collection. The
      session is the one for the owner's class. */
  function AttachCollection(def: CollectionPropertyDefinition, env: Env): (a: Attached)
    requires HasSession(env, def.owner.cls)
    ensures var s := env.sessionFinder[def.owner.cls];
      var pc := env.contexts[s];
      var key := CollectionKeyOf(def);
      && OtherSessionsUnchanged(env, a.env, s)
      && (key in pc.collections ==> a.value == pc.collections[key] && a.env == env)
      && (key !in pc.collections ==>
            && a.value in a.env.heap && a.value < a.env.next && a.env.next == env.next + 1
            && a.env.heap == env.heap[a.value := a.env.heap[a.value]]
            && a.env.heap[a.value].CollectionObject?
            && var c := a.env.heap[a.value].collection;
            && c.cls == HT.HibernateClass(def.collectionType)
            && HT.DetermineType(c.cls) == def.collectionType
            && c.session == s
            && !c.initialized && |c.elements| == 0
            && c.snapshot == Some(HT.Snapshot(def.owner.id, def.role, None))
            && a.env.contexts[s] == pc.(
                 detachedCollections := pc.detachedCollections + [DetachedEntry(def.role, a.value)],
                 unownedCollections := pc.unownedCollections[key := a.value]))
  {
    var s := env.sessionFinder[def.owner.cls];
    var pc := env.contexts[s];
    var identifier := def.owner.id;
    var key := CollectionKeyOf(def);
    if key in pc.collections then
      Attached(pc.collections[key], env)
    else
      var created := HT.CreateCollection(def.collectionType, s);
      var collection := created.(snapshot := Some(HT.Snapshot(identifier, def.role, None)));
      Allocate(env, s, WithCollection(pc, key, env.next), CollectionObject(collection))
  }

  /** The class whose session a placeholder is attached in. */
  function SessionClass(def: PropertyDefinition): ClassName
  {
    match def
    case Simple(d) => d.entityClass
    case Collection(d) => d.owner.cls
  }

  /** attach(): simple placeholders take the simple path, all others the collection path. */
  function Attach(def: PropertyDefinition, env: Env): (a: Attached)
    requires HasSession(env, SessionClass(def))
    ensures def.Simple? ==> a == AttachSimple(def.simple, env)
    ensures def.Collection? ==> a == AttachCollection(def.collection, env)
  {
    match def
    case Simple(d) => AttachSimple(d, env)
    case Collection(d) => AttachCollection(d, env)
  }

  /** On a well-formed state, a proxy or collection the attacher creates is a
      new object: it is neither in the heap nor registered anywhere. */
  lemma AttachCreatesFresh(def: PropertyDefinition, env: Env)
    requires HasSession(env, SessionClass(def)) && Valid(env)
    ensures var a := Attach(def, env);
      a.env != env ==>
        && a.value !in env.heap
        && (forall s, k :: s in env.contexts && k in env.contexts[s].entities ==>
             env.contexts[s].entities[k] != a.value)
        && (forall s, k :: s in env.contexts && k in env.contexts[s].proxies ==>
             env.contexts[s].proxies[k] != a.value)
        && (forall s, k :: s in env.contexts && k in env.contexts[s].collections ==>
             env.contexts[s].collections[k] != a.value)
        && (forall s, k :: s in env.contexts && k in env.contexts[s].unownedCollections ==>
             env.contexts[s].unownedCollections[k] != a.value)
        && (forall s, i :: s in env.contexts && 0 <= i < |env.contexts[s].detachedCollections| ==>
             env.contexts[s].detachedCollections[i].collection != a.value)
  {
  }

  lemma RefsBelowMonotonic(pc: PersistenceContext, bound: Ref, bound': Ref)
    requires RefsBelow(pc, bound) && bound <= bound'
    ensures RefsBelow(pc, bound')
  {
  }

  /** Registrations stay consistent when the heap only grows and the context is untouched. */
  lemma ConsistentUnderHeapGrowth(env: Env, env': Env, t: SessionId)
    requires t in env.contexts && t in env'.contexts && env'.contexts[t] == env.contexts[t]
    requires forall r :: r in env.heap ==> r in env'.heap && env'.heap[r] == env.heap[r]
    requires RegistrationsConsistent(env, t)
    ensures RegistrationsConsistent(env', t)
  {
  }

  /** Allocating keeps the state well-formed when the new context of the
      session is well-formed. */
  lemma AllocatePreservesValid(env: Env, s: SessionId, pc': PersistenceContext, obj: HeapObject)
    requires Valid(env) && s in env.contexts
    requires RefsBelow(pc', env.next + 1)
    requires RegistrationsConsistent(Allocate(env, s, pc', obj).env, s)
    ensures Valid(Allocate(env, s, pc', obj).env)
  {
    var env' := Allocate(env, s, pc', obj).env;
    assert env.next !in env.heap;
    forall t | t in env'.contexts && t != s
      ensures RefsBelow(env'.contexts[t], env'.next)
      ensures RegistrationsConsistent(env', t)
    {
      RefsBelowMonotonic(env.contexts[t], env.next, env'.next);
      ConsistentUnderHeapGrowth(env, env', t);
    }
  }

  /** Registering a new proxy keeps its session well-formed. */
  lemma WithProxyValid(env: Env, s: SessionId, key: EntityKey, entityName: ClassName)
    requires Valid(env) && s in env.contexts
    ensures var pc' := WithProxy(env.contexts[s], key, env.next);
      && RefsBelow(pc', env.next + 1)
      && RegistrationsConsistent(Allocate(env, s, pc', ProxyObject(key, entityName, s)).env, s)
  {
    var pc := env.contexts[s];
    assert RefsBelow(pc, env.next) && RegistrationsConsistent(env, s);
    assert env.next !in env.heap;
  }

  /** Registering a new collection keeps its session well-formed when the
      collection carries its key's snapshot. */
  lemma WithCollectionValid(env: Env, s: SessionId, key: CollectionKey, c: HT.PersistentCollection)
    requires Valid(env) && s in env.contexts
    requires c.session == s && c.snapshot == Some(HT.Snapshot(key.key, key.role, None))
    ensures var pc' := WithCollection(env.contexts[s], key, env.next);
      && RefsBelow(pc', env.next + 1)
      && RegistrationsConsistent(Allocate(env, s, pc', CollectionObject(c)).env, s)
  {
    var pc := env.contexts[s];
    var pc' := WithCollection(pc, key, env.next);
    assert RefsBelow(pc, env.next) && RegistrationsConsistent(env, s);
    assert env.next !in env.heap;
    assert forall i :: 0 <= i < |pc'.detachedCollections| ==>
      pc'.detachedCollections[i].collection < env.next + 1;
  }

  /** Attaching a simple placeholder preserves well-formedness. */
  lemma AttachSimplePreservesValid(def: SimplePropertyDefinition, env: Env)
    requires HasSession(env, def.entityClass) && Valid(env)
    ensures Valid(AttachSimple(def, env).env)
  {
    var s := env.sessionFinder[def.entityClass];
    var pc := env.contexts[s];
    var key := SimpleKey(def, env);
    if key !in pc.entities && key !in pc.proxies {
      WithProxyValid(env, s, key, def.entityClass);
      AllocatePreservesValid(env, s, WithProxy(pc, key, env.next), ProxyObject(key, def.entityClass, s));
    }
  }

  /** Attaching a collection placeholder preserves well-formedness. */
  lemma AttachCollectionPreservesValid(def: CollectionPropertyDefinition, env: Env)
    requires HasSession(env, def.owner.cls) && Valid(env)
    ensures Valid(AttachCollection(def, env).env)
  {
    var s := env.sessionFinder[def.owner.cls];
    var pc := env.contexts[s];
    var key := CollectionKeyOf(def);
    if key !in pc.collections {
      var c := HT.CreateCollection(def.collectionType, s).(snapshot := Some(HT.Snapshot(def.owner.id, def.role, None)));
      WithCollectionValid(env, s, key, c);
      AllocatePreservesValid(env, s, WithCollection(pc, key, env.next), CollectionObject(c));
    }
  }

  /** Attaching preserves well-formedness. */
  lemma AttachPreservesValid(def: PropertyDefinition, env: Env)
    requires HasSession(env, SessionClass(def)) && Valid(env)
    ensures Valid(Attach(def, env).env)
  {
    match def
    case Simple(d) => AttachSimplePreservesValid(d, env);
    case Collection(d) => AttachCollectionPreservesValid(d, env);
  }

  /** Identity unification: attaching a second simple placeholder with the
      same id, a class of the same root entity and the same session, in the
      state the first one left, returns the same object and registers
      nothing more. Two placeholders for the same (class, id) are a case. */
  lemma AttachSimpleUnifies(d1: SimplePropertyDefinition, d2: SimplePropertyDefinition, env: Env)
    requires HasSession(env, d1.entityClass) && HasSession(env, d2.entityClass)
    requires env.sessionFinder[d2.entityClass] == env.sessionFinder[d1.entityClass]
    requires RootEntityName(env, d2.entityClass) == RootEntityName(env, d1.entityClass)
    requires d2.id == d1.id
    ensures var a1 := AttachSimple(d1, env);
      AttachSimple(d2, a1.env) == a1
  {
  }

  /** After a simple attach, the key resolves in the session to the value returned. */
  lemma AttachSimpleResolves(def: SimplePropertyDefinition, env: Env)
    requires HasSession(env, def.entityClass)
    ensures var a := AttachSimple(def, env);
      var pc := a.env.contexts[env.sessionFinder[def.entityClass]];
      var key := SimpleKey(def, env);
      if key in pc.entities then pc.entities[key] == a.value
      else key in pc.proxies && pc.proxies[key] == a.value
  {
  }
}

=== FILE: collection_type.dfy ===
/**
 * The collection-kind catalog: the four kinds of persistent collection the
 * detacher knows, how a live persistent collection is classified into one of
 * them, and the empty containers each kind produces.
 */
module HibernateCollectionType {
  import opened Wrappers
  import opened Objects

  /** The runtime classes of Hibernate 3's persistent collections (package
      org.hibernate.collection), plus any further subclass of one of them. */
  datatype CollectionClass =
    | AbstractPersistentCollection
    | PersistentBag
    | PersistentIdentifierBag
    | PersistentList
    | PersistentSet
    | PersistentSortedSet
    | PersistentMap
    | PersistentSortedMap
    | PersistentArrayHolder
    | Subclass(name: string, parent: CollectionClass)

  /** Distance from the root of the hierarchy. */
  function Depth(c: CollectionClass): nat
  {
    match c
    case AbstractPersistentCollection => 0
    case PersistentSortedSet => 2
    case PersistentSortedMap => 2
    case Subclass(_, p) => Depth(p) + 1
    case _ => 1
  }

  /** The direct superclass; a sorted set is a set and a sorted map is a map. */
  function Super(c: CollectionClass): (s: Option<CollectionClass>)
    ensures s.None? <==> c == AbstractPersistentCollection
    ensures s.Some? ==> Depth(s.value) + 1 == Depth(c)
  {
    match c
    case AbstractPersistentCollection => None
    case PersistentSortedSet => Some(PersistentSet)
    case PersistentSortedMap => Some(PersistentMap)
    case Subclass(_, p) => Some(p)
    case _ => Some(AbstractPersistentCollection)
  }

  /** Java's `c instanceof d`: `d` is `c` or one of its superclasses. */
  predicate InstanceOf(c: CollectionClass, d: CollectionClass)
    decreases Depth(c)
  {
    c == d || (Super(c).Some? && InstanceOf(Super(c).value, d))
  }

  /** `instanceof` is transitive along the class hierarchy. */
  lemma {:induction false} InstanceOfTransitive(a: CollectionClass, b: CollectionClass, c: CollectionClass)
    requires InstanceOf(a, b) && InstanceOf(b, c)
    ensures InstanceOf(a, c)
    decreases Depth(a)
  {
    if a != b {
      InstanceOfTransitive(Super(a).value, b, c);
    }
  }

  /** Every collection class descends from AbstractPersistentCollection, the
      base class implementing the PersistentCollection interface. */
  lemma {:induction false} EveryClassIsPersistent(c: CollectionClass)
    ensures InstanceOf(c, AbstractPersistentCollection)
    decreases Depth(c)
  {
    if c != AbstractPersistentCollection {
      EveryClassIsPersistent(Super(c).value);
    }
  }

  /** Every instance of a sorted set is also an instance of a plain set; this
      is why the classification must test for sorted sets first. */
  lemma {:induction false} SortedSetIsSet(c: CollectionClass)
    requires InstanceOf(c, PersistentSortedSet)
    ensures InstanceOf(c, PersistentSet)
  {
    assert InstanceOf(PersistentSortedSet, PersistentSet);
    InstanceOfTransitive(c, PersistentSortedSet, PersistentSet);
  }

  /** The four collection kinds. */
  datatype Kind = LIST | SET | SORTED_SET | MAP

  /** The plain `java.util` container classes. */
  datatype PlainClass = ArrayList | HashSet | TreeSet | HashMap

  /** The `java.util` interfaces used as declared field types. */
  datatype Interface = ListInterface | SetInterface | MapInterface

  /** The Hibernate collection class each kind constructs. */
  function HibernateClass(k: Kind): (c: CollectionClass)
    ensures PersistentImplements(c, PlainInterface(k))
    ensures InstanceOf(c, PersistentSet) <==> k == SET || k == SORTED_SET
  {
    match k
    case LIST => PersistentBag
    case SET => PersistentSet
    case SORTED_SET => PersistentSortedSet
    case MAP => PersistentMap
  }

  /** The plain container class each kind constructs. */
  function PlainTypeClass(k: Kind): (p: PlainClass)
    ensures PlainImplements(p, PlainInterface(k))
    ensures p == TreeSet <==> k == SORTED_SET
  {
    match k
    case LIST => ArrayList
    case SET => HashSet
    case SORTED_SET => TreeSet
    case MAP => HashMap
  }

  /** The interface type of a kind (getPlainInterface). */
  function PlainInterface(k: Kind): (i: Interface)
    ensures i == ListInterface <==> k == LIST
    ensures i == SetInterface <==> k == SET || k == SORTED_SET
    ensures i == MapInterface <==> k == MAP
  {
    match k
    case LIST => ListInterface
    case SET => SetInterface
    case SORTED_SET => SetInterface
    case MAP => MapInterface
  }

  /** Which `java.util` interface a plain container class implements. */
  predicate PlainImplements(p: PlainClass, i: Interface)
  {
    match p
    case ArrayList => i == ListInterface
    case HashSet => i == SetInterface
    case TreeSet => i == SetInterface
    case HashMap => i == MapInterface
  }

  /** Which `java.util` interface a persistent collection class implements,
      inherited along the class hierarchy. */
  predicate PersistentImplements(c: CollectionClass, i: Interface)
    decreases Depth(c)
  {
    match c
    case PersistentBag => i == ListInterface
    case PersistentIdentifierBag => i == ListInterface
    case PersistentList => i == ListInterface
    case PersistentSet => i == SetInterface
    case PersistentMap => i == MapInterface
    case PersistentSortedSet => PersistentImplements(PersistentSet, i)
    case PersistentSortedMap => PersistentImplements(PersistentMap, i)
    case Subclass(_, p) => PersistentImplements(p, i)
    case AbstractPersistentCollection => false
    case PersistentArrayHolder => false
  }

  /** determineType: an ordered `instanceof` chain that falls through to MAP. */
  function DetermineType(c: CollectionClass): (k: Kind)
    ensures k == SORTED_SET <==> InstanceOf(c, PersistentSortedSet)
    ensures k == SET <==> InstanceOf(c, PersistentSet) && !InstanceOf(c, PersistentSortedSet)
    ensures k == LIST <==> InstanceOf(c, PersistentBag) && !InstanceOf(c, PersistentSet)
    ensures k == MAP <==> !InstanceOf(c, PersistentSet) && !InstanceOf(c, PersistentBag)
  {
    if InstanceOf(c, PersistentSortedSet) then
      SortedSetIsSet(c);
      SORTED_SET
    else if InstanceOf(c, PersistentSet) then SET
    else if InstanceOf(c, PersistentBag) then LIST
    else MAP
  }

  /** A collection of the class a kind constructs is classified as that kind. */
  lemma DetermineTypeRoundTrip(k: Kind)
    ensures DetermineType(HibernateClass(k)) == k
  {
  }

  /** A non-MAP classification is sound: the collection really is an instance
      of the kind's Hibernate class. */
  lemma DetermineTypeSound(c: CollectionClass)
    ensures DetermineType(c) != MAP ==> InstanceOf(c, HibernateClass(DetermineType(c)))
  {
  }

  /** A subclass is classified like its parent. */
  lemma DetermineTypeInherited(name: string, parent: CollectionClass)
    ensures DetermineType(Subclass(name, parent)) == DetermineType(parent)
  {
  }

  /** The stored state of `setSnapshot(key, role, snapshot)`. */
  datatype Snapshot = Snapshot(key: Id, role: string, stored: Option<seq<Ref>>)

  /** A persistent collection handle. */
  datatype PersistentCollection = PersistentCollection(
    cls: CollectionClass,
    session: SessionId,
    initialized: bool,
    elements: seq<Ref>,
    snapshot: Option<Snapshot>)

  /** A plain `java.util` container. */
  datatype PlainCollection = PlainCollection(cls: PlainClass, elements: seq<Ref>)

  /** createCollection: a new, empty, uninitialised persistent collection of
      the kind's Hibernate class, bound to the given session. */
  function CreateCollection(k: Kind, session: SessionId): (c: PersistentCollection)
    ensures c.cls == HibernateClass(k)
    ensures DetermineType(c.cls) == k
    ensures InstanceOf(c.cls, AbstractPersistentCollection)
    ensures c.session == session
    ensures !c.initialized && |c.elements| == 0 && c.snapshot.None?
  {
    PersistentCollection(HibernateClass(k), session, false, [], None)
  }

  /** createPlainCollection: a new, empty plain container of the kind's plain
      class; the persistent collection it is given is not consulted, and the
      map and non-map branches construct the same thing. */
  function CreatePlainCollection(k: Kind, source: PersistentCollection): (p: PlainCollection)
    ensures PlainImplements(p.cls, PlainInterface(k))
    ensures p.cls == PlainTypeClass(k)
    ensures |p.elements| == 0
  {
    if PlainImplements(PlainTypeClass(k), MapInterface) then
      PlainCollection(PlainTypeClass(k), [])
    else
      PlainCollection(PlainTypeClass(k), [])
  }

  /** The plain container does not depend on the persistent collection it replaces. */
  lemma PlainCollectionIgnoresSource(k: Kind, a: PersistentCollection, b: PersistentCollection)
    ensures CreatePlainCollection(k, a) == CreatePlainCollection(k, b)
  {
  }
}

=== FILE: list_model.dfy ===
/**
 * The list model: a nullable list of per-element models. The per-element
 * model (DozerModel) is opaque here; it is given by what wrapping an object,
 * reading it back and detaching it do.
 */
module DozerListModel {
  import opened Wrappers

  /** The behaviour of the per-element model: `wrap` is its constructor,
      `getObject` reads the object, `detach` prepares it for serialization. */
  datatype ElementModel<!T, !M> = ElementModel(wrap: T -> M, getObject: M -> T, detach: M -> M)

  /** The `models` field; `None` is a null list. */
  datatype ListModel<M> = ListModel(models: Option<seq<M>>)

  /** The result of detach: the detached models, and the models whose
      `detach` was called, in call order. */
  datatype Detached<M> = Detached(model: ListModel<M>, calls: seq<M>)

  /** The default constructor: an empty, non-null model list. */
  function Empty<M>(): (lm: ListModel<M>)
    ensures lm.models.Some? && |lm.models.value| == 0
  {
    ListModel(Some([]))
  }

  /** innerSet's loop: one new element model per object, appended in order. */
  function WrapAll<T, M>(objects: seq<T>, em: ElementModel<T, M>): (models: seq<M>)
    ensures |models| == |objects|
    ensures forall i :: 0 <= i < |objects| ==> models[i] == em.wrap(objects[i])
  {
    if |objects| == 0 then []
    else WrapAll(objects[..|objects| - 1], em) + [em.wrap(objects[|objects| - 1])]
  }

  /** innerSet: a null list gives null models, otherwise one model per object. */
  function InnerSet<T, M>(objects: Option<seq<T>>, em: ElementModel<T, M>): (lm: ListModel<M>)
    ensures lm.models.None? <==> objects.None?
    ensures objects.Some? ==>
      && |lm.models.value| == |objects.value|
      && forall i :: 0 <= i < |objects.value| ==> lm.models.value[i] == em.wrap(objects.value[i])
  {
    match objects
    case None => ListModel(None)
    case Some(xs) => ListModel(Some(WrapAll(xs, em)))
  }

  /** The list constructor: the default constructor followed by innerSet. */
  function Create<T, M>(objects: Option<seq<T>>, em: ElementModel<T, M>): (lm: ListModel<M>)
    ensures lm.models.None? <==> objects.None?
    ensures objects.Some? ==>
      && |lm.models.value| == |objects.value|
      && forall i :: 0 <= i < |objects.value| ==> lm.models.value[i] == em.wrap(objects.value[i])
  {
    var initial: ListModel<M> := Empty();
    SetObject(initial, objects, em)
  }

  /** setObject: replaces the models by ones built from the new list. */
  function SetObject<T, M>(lm: ListModel<M>, objects: Option<seq<T>>, em: ElementModel<T, M>): (r: ListModel<M>)
    ensures r.models.None? <==> objects.None?
    ensures objects.Some? ==>
      && |r.models.value| == |objects.value|
      && forall i :: 0 <= i < |objects.value| ==> r.models.value[i] == em.wrap(objects.value[i])
  {
    InnerSet(objects, em)
  }

  /** getObject's loop: each model's object, appended in order. */
  function GetAll<T, M>(models: seq<M>, em: ElementModel<T, M>): (objects: seq<T>)
    ensures |objects| == |models|
    ensures forall i :: 0 <= i < |models| ==> objects[i] == em.getObject(models[i])
  {
    if |models| == 0 then []
    else GetAll(models[..|models| - 1], em) + [em.getObject(models[|models| - 1])]
  }

  /** getObject: null when the models are null, otherwise a new list with each
      model's object at the model's position. */
  function GetObject<T, M>(lm: ListModel<M>, em: ElementModel<T, M>): (objects: Option<seq<T>>)
    ensures objects.None? <==> lm.models.None?
    ensures lm.models.Some? ==>
      && |objects.value| == |lm.models.value|
      && forall i :: 0 <= i < |lm.models.value| ==> objects.value[i] == em.getObject(lm.models.value[i])
  {
    match lm.models
    case None => None
    case Some(ms) => Some(GetAll(ms, em))
  }

  /** detach's loop: every model detached once, in order. */
  function DetachAll<T, M>(models: seq<M>, em: ElementModel<T, M>): (d: Detached<M>)
    ensures d.calls == models
    ensures d.model.models.Some? && |d.model.models.value| == |models|
    ensures forall i :: 0 <= i < |models| ==> d.model.models.value[i] == em.detach(models[i])
  {
    if |models| == 0 then Detached(ListModel(Some([])), [])
    else
      var init := DetachAll(models[..|models| - 1], em);
      var last := models[|models| - 1];
      assert models == models[..|models| - 1] + [last];
      Detached(ListModel(Some(init.model.models.value + [em.detach(last)])), init.calls + [last])
  }

  /** detach: nothing when the models are null, otherwise every model once, in order. */
  function Detach<T, M>(lm: ListModel<M>, em: ElementModel<T, M>): (d: Detached<M>)
    ensures lm.models.None? ==> d.model == lm && |d.calls| == 0
    ensures lm.models.Some? ==>
      && d.calls == lm.models.value
      && d.model.models.Some? && |d.model.models.value| == |lm.models.value|
      && forall i :: 0 <= i < |lm.models.value| ==> d.model.models.value[i] == em.detach(lm.models.value[i])
  {
    match lm.models
    case None => Detached(lm, [])
    case Some(ms) => DetachAll(ms, em)
  }

  /** A default-constructed model reads as an empty, non-null list. */
  lemma EmptyReadsEmpty<T, M>(em: ElementModel<T, M>)
    ensures GetObject(Empty(), em) == Some([])
  {
  }

  /** Setting a null list makes the model read as null. */
  lemma SetNullReadsNull<T, M>(lm: ListModel<M>, em: ElementModel<T, M>)
    ensures GetObject(SetObject(lm, None, em), em) == None
  {
  }

  /** Round trip: when each element model gives back the object it wraps, the
      list model gives back the list it was set to, null included. */
  lemma SetThenGet<T, M>(lm: ListModel<M>, objects: Option<seq<T>>, em: ElementModel<T, M>)
    requires forall x :: em.getObject(em.wrap(x)) == x
    ensures GetObject(SetObject(lm, objects, em), em) == objects
  {
    if objects.Some? {
      var got := GetObject(SetObject(lm, objects, em), em).value;
      assert got == objects.value;
    }
  }

  /** setObject discards the previous models entirely. */
  lemma SetObjectDiscardsPrevious<T, M>(a: ListModel<M>, b: ListModel<M>, objects: Option<seq<T>>, em: ElementModel<T, M>)
    ensures SetObject(a, objects, em) == SetObject(b, objects, em)
  {
  }

  /** Round trip for the list constructor: when each element model gives
      back the object it wraps, the new list model reads back the list it was
      built from, null included. */
  lemma CreateThenGet<T, M>(objects: Option<seq<T>>, em: ElementModel<T, M>)
    requires forall x :: em.getObject(em.wrap(x)) == x
    ensures GetObject(Create(objects, em), em) == objects
  {
    if objects.Some? {
      var got := GetObject(Create(objects, em), em).value;
      assert got == objects.value;
    }
  }

  /** When detaching an element model keeps the object it reads, detaching the
      list model keeps the list it reads. */
  lemma DetachKeepsObject<T, M>(lm: ListModel<M>, em: ElementModel<T, M>)
    requires forall m :: em.getObject(em.detach(m)) == em.getObject(m)
    ensures GetObject(Detach(lm, em).model, em) == GetObject(lm, em)
  {
    if lm.models.Some? {
      var before := GetObject(lm, em).value;
      var after := GetObject(Detach(lm, em).model, em).value;
      assert after == before;
    }
  }
}

=== FILE: objects.dfy ===
/** Object identity shared by every component of the model. */
module Objects {

  /** A Java object reference: two references are `==` exactly when the numbers are equal. */
  type Ref = nat

  /** The identity of a live Hibernate session. */
  type SessionId = nat

  /** An entity identifier (Hibernate's `Serializable` id), kept opaque. */
  type Id = nat
}

=== FILE: seen.dfy ===
/**
 * The cycle tracker used by the detacher: a list of visited objects,
 * searched by reference identity.
 */
module Seen {
  import opened Objects

  /** The `seen` list, in insertion order; duplicates are allowed. */
  datatype Seen = Seen(items: seq<Ref>)

  /** A fresh tracker holds no object. */
  function Empty(): (s: Seen)
    ensures |s.items| == 0
    ensures forall o: Ref :: o !in s.items
  {
    Seen([])
  }

  /** add: appends the object, even when it is already present. */
  function Add(s: Seen, obj: Ref): (r: Seen)
    ensures |r.items| == |s.items| + 1
    ensures r.items[..|s.items|] == s.items && r.items[|s.items|] == obj
    ensures forall o :: o in r.items <==> o in s.items || o == obj
  {
    Seen(s.items + [obj])
  }

  /** The position of the first occurrence of `obj`. */
  function FirstIndex(xs: seq<Ref>, obj: Ref): (i: nat)
    requires obj in xs
    ensures i < |xs| && xs[i] == obj && obj !in xs[..i]
  {
    if xs[0] == obj then 0 else FirstIndex(xs[1..], obj) + 1
  }

  /** Deletes the first occurrence of `obj`, if any, keeping the rest in order. */
  function RemoveFirst(xs: seq<Ref>, obj: Ref): (r: seq<Ref>)
    ensures obj !in xs ==> r == xs
    ensures obj in xs ==> |r| + 1 == |xs|
  {
    if |xs| == 0 then []
    else if xs[0] == obj then xs[1..]
    else
      assert obj in xs[1..] <==> obj in xs by { assert xs == [xs[0]] + xs[1..]; }
      [xs[0]] + RemoveFirst(xs[1..], obj)
  }

  /** The occurrence removed is the first one: everything before it and
      everything after it stays where it was. */
  lemma {:induction false} RemoveFirstAt(xs: seq<Ref>, obj: Ref, i: nat)
    requires i < |xs| && xs[i] == obj && obj !in xs[..i]
    ensures RemoveFirst(xs, obj) == xs[..i] + xs[i + 1..]
  {
    if i > 0 {
      assert xs[0] != obj by { assert xs[0] in xs[..i]; }
      var tail := xs[1..];
      assert obj !in tail[..i - 1] by { assert tail[..i - 1] == xs[1..i]; }
      RemoveFirstAt(tail, obj, i - 1);
      assert [xs[0]] + tail[..i - 1] == xs[..i];
      assert tail[i..] == xs[i + 1..];
    }
  }

  /** Deleting the element at `i` removes one copy of it and nothing else. */
  lemma DeleteAtCounts(xs: seq<Ref>, i: nat)
    requires i < |xs|
    ensures var r := xs[..i] + xs[i + 1..];
      && multiset(r) == multiset(xs) - multiset{xs[i]}
      && forall o :: o != xs[i] ==> (o in r <==> o in xs)
  {
    var r := xs[..i] + xs[i + 1..];
    assert xs == xs[..i] + [xs[i]] + xs[i + 1..];
    assert multiset(xs) == multiset(xs[..i]) + multiset{xs[i]} + multiset(xs[i + 1..]);
    assert forall o :: o in r <==> o in multiset(r);
    assert forall o :: o in xs <==> o in multiset(xs);
  }

  /** remove: deletes the first occurrence of the object, if any, and keeps
      the order of the rest. */
  function Remove(s: Seen, obj: Ref): (r: Seen)
    ensures obj !in s.items ==> r == s
    ensures obj in s.items ==>
      var i := FirstIndex(s.items, obj);
      r.items == s.items[..i] + s.items[i + 1..]
    ensures multiset(r.items) == multiset(s.items) - multiset{obj}
    ensures forall o :: o != obj ==> (o in r.items <==> o in s.items)
  {
    var r := Seen(RemoveFirst(s.items, obj));
    if obj in s.items then
      var i := FirstIndex(s.items, obj);
      RemoveFirstAt(s.items, obj, i);
      DeleteAtCounts(s.items, i);
      r
    else
      r
  }

  /** contains: scans the whole list, latching the first identity match. */
  method Contains(s: Seen, obj: Ref) returns (contains: bool)
    ensures contains <==> obj in s.items
    ensures contains <==> exists i :: 0 <= i < |s.items| && s.items[i] == obj
  {
    contains := false;
    for i := 0 to |s.items|
      invariant contains <==> obj in s.items[..i]
    {
      if !contains {
        contains := s.items[i] == obj;
      }
      assert s.items[..i + 1] == s.items[..i] + [s.items[i]];
    }
    assert s.items[..|s.items|] == s.items;
  }

  /** Entering and then leaving an object not yet seen restores the tracker
      exactly, so siblings can be visited again after a descent returns. */
  lemma AddThenRemove(s: Seen, obj: Ref)
    requires obj !in s.items
    ensures Remove(Add(s, obj), obj) == s
  {
  }

  /** Entering and leaving any object leaves the same objects seen the same
      number of times, even when the object was already present. */
  lemma AddThenRemoveMultiset(s: Seen, obj: Ref)
    ensures multiset(Remove(Add(s, obj), obj).items) == multiset(s.items)
  {
  }
}

=== FILE: wrappers.dfy ===
/** Java's nullable references, modelled as an explicit option. */
module Wrappers {

  /** `None` stands for Java `null`. */
  datatype Option<+T> = None | Some(value: T)
}
